=== FILE: README.md ===
# Mac Converter Pro — batch conversion core in Dafny

This project models the batch-conversion logic of `converter.py` without its
Tk widgets. It covers:

- the format catalog: the output formats each mode offers, and the input extensions of the image, video and audio classes;
- the duplicate-free conversion queue and its add, add-folder, remove and clear operations;
- the per-mode convert-or-skip selector, including the rule that Audio mode also takes video sources;
- the encoding plans handed to the image and video libraries;
- the sequential run over the queue, with its counters and progress;
- the start preconditions;
- the text of the final report.

The codec libraries (PIL with the HEIF opener, moviepy) are an oracle. The
model calls it with an encoding plan, and each call either finishes or raises
with a message.

Modules:

- `Wrappers` (wrappers.dfy): the optional value the parsers return.
- `Text` (text.dfy): lower-casing of ASCII letters and the Kelvin sign, `rfind`, line splitting, and decimal rendering of counters with a parser that reads them back.
- `Catalog` (catalog.dfy): the tables, the media class of an extension, and the mode/format pair of the settings panel.
- `Paths` (paths.dfy): `Path.name`, `Path.suffix` and `Path.stem`, POSIX `os.path.join`, and the destination path.
- `Queue` (queue.dfy): `add_item`, `add_files`, `remove_item`, `clear_list` and the `add_folder` filter.
- `Selector` (selector.dfy): the convert-or-skip decision as the loop takes it, and the class policy it implements.
- `Codec` (codec.dfy): image and video encoding plans, and the oracle's interface.
- `Report` (report.dfy): the `finish` message and a reader that recovers the counts from it.
- `Runner` (runner.dfy): one item, the run fold, the imperative loop, progress, and the start preconditions.
- `LiveRun` (live.dfy): the loop as it actually runs over the live queue list (see Findings).

## Model

| member | source | states |
|---|---|---|
| Catalog.ClassOf | converter.py:274-279 | a lower-cased extension is image, video or audio class exactly when it is in that table, and unknown exactly when it is outside the union the folder filter uses |
| Catalog.InputTablesDisjoint | converter.py:59-63 | no extension is in two of the three input tables, so the audio-video-image test order does not matter |
| Catalog.ClassExamples | converter.py:60-62 | `.gif` is video, `.pdf` is image, `.aac` is audio, `.txt` is unknown, and `.MOV` is unknown until it is lower-cased |
| Catalog.FormatsDistinct | converter.py:53-57 | no mode's menu lists a format token twice |
| Catalog.SwitchMode | converter.py:181-184 | switching mode selects the first entry of that mode's format list, so the shown format is always one the mode offers |
| Catalog.InitialSettingsValid | converter.py:124-129 | at start-up the panel shows Image mode and PNG, which is what switching to Image would select |
| Paths.Name | converter.py:358 | a file name has no slash and is the tail of its path, preceded by a slash whenever it is shorter than the path |
| Paths.Suffix | converter.py:357 | a suffix is either empty or a dot followed by at least one character with no further dot |
| Paths.Stem | converter.py:358 | a non-empty file name has a non-empty stem |
| Paths.StemSuffixSplit | converter.py:357-358 | stem followed by suffix gives back the file name exactly |
| Paths.SuffixLower | converter.py:255 | the suffix of the lower-cased name is the lower-cased suffix |
| Paths.SuffixOfBuiltName | converter.py:359 | the name `stem.ext` has suffix `.ext` and stem `stem` when the stem is non-empty and `ext` is non-empty and dot-free |
| Paths.Join | converter.py:359 | POSIX join: an absolute name replaces the directory; otherwise the result is the directory followed by the name, with one `/` between them unless the directory is empty or already ends with one |
| Paths.DestPath | converter.py:357-359 | the output file lies inside the output directory (which is a prefix of it) and ends with `.` followed by the format token it is given, which the run passes lower-cased (`Runner.Destination`) |
| Paths.NameOfJoin | converter.py:256 | joining a slash-free file name onto any directory keeps that name as the last path component |
| Paths.DestReplacesExtension | converter.py:357-359 | the destination's name is the source stem, a dot and the format; its suffix is the new format and its stem the old stem, so the extension is replaced, not appended; the path starts with the output directory |
| Paths.DestExample | converter.py:343-359 | `/a/b/clip.MOV` converted to `MP4` into `/out` is written to `/out/clip.mp4` |
| Queue.AddItem | converter.py:259-261 | a queued path leaves the queue unchanged and a new one is appended; the queue stays duplicate-free, keeps its prefix, and holds exactly the old paths plus the new one |
| Queue.AddFiles | converter.py:244-247 | adding any sequence of paths keeps the queue duplicate-free and its old order as a prefix; it holds exactly the old and the added paths |
| Queue.AddFilesOrder | converter.py:246 | the appended entries are chosen paths that were not queued, ordered by where each first appears in the dialog's list, so the queue follows the dialog's order |
| Queue.IndexOf | converter.py:315 | the position of the first occurrence of a queued path |
| Queue.RemoveItem | converter.py:314-315 | an absent path changes nothing; a present one is cut out at its first position, and the queue shrinks by one; on a duplicate-free queue the path is gone and nothing else is |
| Queue.RemoveItemIsWithout | converter.py:314-315 | on a duplicate-free queue, removal equals filtering the path out, so the other entries keep their relative order |
| Queue.ClearList | converter.py:321-322 | clearing always yields the empty queue |
| Queue.Accepted | converter.py:255 | the folder filter accepts a file exactly when its lower-cased suffix gets a media class (the row icon of converter.py:275-279 is never the generic one), and only files that have a suffix |
| Queue.AcceptedIgnoresCase | converter.py:255 | two file names that agree after lower-casing are both accepted or both rejected by the folder filter |
| Queue.FolderCandidates | converter.py:252-256 | the folder import collects the joined path of every walked file whose lower-cased suffix is a recognised input extension, and nothing else |
| Queue.FolderCandidatesAppend | converter.py:253-256 | walk order is kept: the candidates of a walk over `a` then `b` are those of `a` followed by those of `b` |
| Queue.FolderCandidatesOne | converter.py:255-256 | a single walked file contributes its joined path exactly when the filter accepts it, and nothing otherwise |
| Queue.AddFolder | converter.py:249-257 | a cancelled folder choice leaves the queue alone; otherwise the queue gains exactly the accepted walked files not yet queued, in walk order of first appearance, stays duplicate-free and keeps its prefix |
| Queue.AddFolderOnlyAccepted | converter.py:252-256 | a walked file that was not already queued is queued after the import exactly when a folder was chosen and its suffix passes the filter |
| Selector.Select | converter.py:362-405 | the class policy: Image mode takes only image class, Video mode only video class, Audio mode audio or video class; unknown files are never taken |
| Selector.Decide | converter.py:362-397 | the table-membership tests of the three mode branches (lines 363, 381, 397) give exactly the class policy of the extension's media class |
| Selector.ProceedOnlyKnown | converter.py:362-397 | only a recognised input extension is ever converted |
| Selector.PolicyTable | converter.py:362-405 | Audio takes video and audio; Audio skips image; Image skips video and audio; Video skips image and audio; every mode skips unknown files |
| Selector.GifAndPdfExamples | converter.py:60-61 | a `.gif` is skipped in Image mode and converted in Video and Audio modes; a `.pdf` is converted only in Image mode |
| Codec.PlanImage | converter.py:364-372 | an ICNS target is written as an icon container without a quality setting; any other target is written by extension with quality 95 at the opened size |
| Codec.IconIsSquareWithAlpha | converter.py:365-368 | whatever image was opened, an icon is written as RGBA on a 1024 by 1024 canvas |
| Codec.FlattenOnlyForOpaqueTargets | converter.py:369-372 | JPEG, JPG and BMP targets turn RGBA or LA into RGB and never carry an alpha mode; other targets, and other source modes, keep the opened image |
| Codec.PlanVideo | converter.py:382-387 | a GIF target uses the GIF writer; any other target gets audio codec `aac` and video codec `libvpx` exactly for WEBM, `libx264` otherwise |
| Runner.ErrorEntry | converter.py:407-408 | an error entry is the file's stem, `: `, and the exception text unchanged |
| Runner.EncodeConsultsOnlyItsPlan | converter.py:359-399 | the libraries are called only with this item's plan: codecs that agree on opening the source and on the call with the destination `<out_dir>/<stem>.<lower-cased fmt>` and the plan for that token (image plan, video plan with libvpx for webm, audio plan) give the same result, whatever they do on any other destination or plan |
| Runner.EncodeUsesOwnLibrary | converter.py:362-400 | each mode calls only its own library: codecs that agree on the calls of the request's mode (open and save for Image, the video writer for Video, the audio writer for Audio) give the same result, whatever the other libraries do |
| Runner.UnopenedImageNeverSaved | converter.py:364-372 | in Image mode an image the opener rejects is never saved: the item's error is the opener's error, and any two savers give the same result |
| Runner.EncodeIgnoresFormatCase | converter.py:343-359 | only the lower-cased format token reaches the libraries and the destination: two requests whose formats agree after lower-casing encode alike |
| Runner.ConvertItem | converter.py:356-409 | an item is skipped exactly when the class policy rejects it; otherwise it is converted when the library call finishes, and when the call raises it becomes an error entry `<stem>: <message>` |
| Runner.KelvinSignExtension | converter.py:357 | the name `clip.M` + Kelvin sign + `V` has extension `.mkv`, passes the folder filter, and is converted in Video mode, as Python's lower-casing makes it |
| Runner.TallyComplete | converter.py:346-409 | successes, skips and error entries together number exactly the items processed |
| Runner.OutcomesPointwise | converter.py:350-409 | the pass yields one outcome per item, each being that item's own step result, whatever happened to earlier items |
| Runner.Fold | converter.py:345-411 | a run gives every snapshot item its own outcome; the success count is the number of converted outcomes, the skip count the number of skipped ones, and the error list the failure messages in queue order, so the three add up to the total; progress after item i is (i+1) of total |
| Runner.Run | converter.py:341-411 | on the snapshot, item i gets exactly the outcome of converting it with the run's mode, format and directory; the counters tally those outcomes and add up to the total; progress after item i is (i+1) of total |
| Runner.RunLoop | converter.py:345-411 | the imperative loop with in-place counters computes the same outcomes, counters and progress as the fold, and its counters add up to the total |
| Runner.ProgressMonotone | converter.py:411 | the progress fraction strictly increases from item to item, stays within (0, 1], and is exactly 1 after the last item |
| Runner.SkipsFollowPolicy | converter.py:362-405 | a run's skip count is the number of items the class policy rejects for the mode, whatever the codecs do |
| Runner.StartConversion | converter.py:332-339 | an empty queue only raises the warning; a cancelled directory choice does nothing; otherwise each queued file gets the outcome of converting it with the panel's mode and format into the chosen directory, the counters tally those outcomes, progress runs 1 to total of total, and the report consists of exactly the Completed, Skipped and Errors lines of those counters and reads back to them |
| Report.FinishMessage | converter.py:433-435 | the report always starts with `Completed: ` |
| Report.FinishLines | converter.py:433-435 | the report has the Completed line, then a Skipped line only if the skip count is positive, then an Errors line only if the error list is non-empty |
| Report.FinishRoundTrip | converter.py:428-437 | reading the report text back recovers exactly the success count, the skip count and the number of errors |
| Text.NatToStringRoundTrip | converter.py:433-435 | the decimal text of a counter reads back as the same number |
| Text.Lower | converter.py:255 | lower-casing keeps the length, lower-cases each character (ASCII letters and the Kelvin sign), and leaves no upper-case ASCII letter |
| LiveRun.LiveLoop | converter.py:345-411 | the loop over the live list produces one progress event per visited item, numbered on from the current index but always divided by the total read before the loop; nothing once the iterator is past the end; once the list can no longer change (detached by a clear, or no further edits) it visits exactly the remaining entries in order |
| LiveRun.LiveProcess | converter.py:341-411 | as written, progress after the k-th visited item is k of the initial queue length however many items are visited; without edits every queued item is visited once, in order |
| LiveRun.ClearDuringRunIsIgnored | converter.py:321-322 | `clear_list` rebinds the attribute, so clearing while the first item converts does not stop the run: every item the run started with is still converted, whatever edits follow |
| LiveRun.LiveWithoutEditsIsFold | converter.py:345-411 | without queue edits during the run, the live loop visits exactly the snapshot items and reports the same progress as the fold |
| LiveRun.RemovalSkipsAnItem | converter.py:345-350 | removing the file being converted from a three-file queue makes the loop skip the middle file; progress stops at 2 of 3 |
| LiveRun.AdditionOvershootsTotal | converter.py:345-411 | adding a file while a one-file queue converts makes the loop visit two files and set the progress fraction to 2 |
| LiveRun.SnapshotRunIsComplete | converter.py:345-411 | run over a snapshot, every queued item is visited once and the progress bar ends at exactly 1, never above |

## Findings

| source | as written | input that shows it | evidently intended | confidence | as-written member | corrected member |
|---|---|---|---|---|---|---|
| converter.py:345-350 | the worker thread iterates the live `files_to_convert` list, while `total` is read once before the loop; the row delete button and the Add buttons stay usable during a run | queue `[a, b, c]`, `a` removed while it converts: `b` is never converted, only two of three items are counted, and progress ends at 2/3. Queue `[a]`, `b` added meanwhile: two items are converted and the bar is set to 2.0 | the run processes the queue as it stood when the run started: each item once, and progress ends at 1 | medium, not executed | LiveRun.RemovalSkipsAnItem | LiveRun.SnapshotRunIsComplete |

The rest of the model (`Runner.Run`, `Runner.StartConversion`) uses the
corrected behaviour: a snapshot of the queue is taken when the run starts.

## Left out

- Widgets, colours, layout, `update_count`, `mark_row` border styling and the `file_widgets` bookkeeping are presentation only.
- The `threading.Thread` start and the `self.after` hand-off to `finish` are concurrency plumbing. The run is one sequential function. `LiveRun` models only the effect of queue edits made during a run on the iterated list.
- File dialogs are parameters. The chosen folder or output directory is a string, and the empty string means cancelled. The `os.walk` traversal is given as a list of (directory, file name) pairs.
- PIL, pillow_heif and moviepy calls and LANCZOS resampling are an oracle. It returns `Done` or `Raised(message)` for each call: open image, save image, write video, write audio. Pixel data, codecs and files on disk are not modelled.
- The oracle is a pure function of its arguments. Files written by earlier items are therefore not state. Overwriting an existing destination, two sources with the same stem, and an output directory equal to the source directory are visible only through `Paths.DestPath`.
- `clip.close()` is skipped when a write raises, so the code makes no release-on-failure guarantee, and none is modelled. The audio and video plans carry no resource state.
- Only the three modes of the segmented button exist in the model. In the code, a mode string outside those three would count an item nowhere; the widget cannot produce one.
- The run checks only that a directory was chosen. The directory picker only returns existing directories, so no existence or writability check is modelled, and the code has none.
- The title and text of the empty-queue warning are presentation, and so is the progress label text. The progress event keeps its two numbers.
- build_app.py is PyInstaller packaging with no logic of its own.
- Text.Lower: maps the ASCII letters and the Kelvin sign (which Python lower-cases to `k`) and keeps every other character. Python also lower-cases other non-ASCII letters, but never into a result made only of ASCII characters. The tables and format tokens are all ASCII, so no table lookup, filter or destination name differs.
- Paths.Name: takes the text after the last `/` and does not apply pathlib's normalisation of trailing slashes, repeated slashes or `.` components. Paths from the dialogs and from `os.path.join` never carry them.
- Paths.Suffix: uses the rule that a suffix's dot is neither the first nor the last character of the name. Under that rule `foo.` has no suffix.
- LiveRun.LiveLoop: allows at most one queue edit while each item converts. Several edits during one item, such as two rows deleted while one file converts, are not expressible. The finding needs only one.
- Runner.ProgressMonotone: the fraction is an exact rational. The code's floating-point division can round it.

=== FILE: catalog.dfy ===
/**
 The format catalog: the output formats offered in each mode, the input
 extensions recognised for each media class, and the mode/format pair the
 settings panel holds.
 */
module Catalog {

  datatype Mode = Image | Audio | Video

  datatype MediaClass = ImageClass | VideoClass | AudioClass | UnknownClass

  /** Output format tokens offered per mode, in menu order (upper-case, as displayed). */
  function FormatsFor(mode: Mode): seq<string> {
    match mode
    case Image => ["PNG", "JPEG", "JPG", "WEBP", "ICNS", "PDF", "TIFF", "BMP", "ICO", "HEIC"]
    case Audio => ["MP3", "WAV", "FLAC", "AAC", "M4A", "OGG", "WMA", "AIFF"]
    case Video => ["MP4", "MOV", "AVI", "MKV", "WEBM", "WMV", "FLV", "MPEG", "GIF"]
  }

  /** Recognised input extensions, lower-case with the leading dot. */
  const ImageInputs: seq<string> := [".jpg", ".jpeg", ".png", ".heic", ".webp", ".bmp", ".tiff", ".ico", ".pdf"]
  const VideoInputs: seq<string> := [".mp4", ".mov", ".avi", ".mkv", ".webm", ".wmv", ".flv", ".mpeg", ".gif"]
  const AudioInputs: seq<string> := [".mp3", ".wav", ".flac", ".m4a", ".ogg", ".wma", ".aiff", ".aac"]

  /** The folder-import filter: every recognised input extension. */
  const AllValid: seq<string> := ImageInputs + VideoInputs + AudioInputs

  /**
   The media class of a lower-cased extension. Audio is tested first, then
   video, then image, the order in which the queue picks a row icon; since the
   three tables are disjoint the order never matters.
   */
  function ClassOf(ext: string): (c: MediaClass)
    ensures c == ImageClass <==> ext in ImageInputs
    ensures c == VideoClass <==> ext in VideoInputs
    ensures c == AudioClass <==> ext in AudioInputs
    ensures c == UnknownClass <==> ext !in AllValid
  {
    InputTablesDisjoint(ext);
    if ext in AudioInputs then AudioClass
    else if ext in VideoInputs then VideoClass
    else if ext in ImageInputs then ImageClass
    else UnknownClass
  }

  /** No extension belongs to two media classes. */
  lemma InputTablesDisjoint(ext: string)
    ensures !(ext in ImageInputs && ext in VideoInputs)
    ensures !(ext in ImageInputs && ext in AudioInputs)
    ensures !(ext in VideoInputs && ext in AudioInputs)
  {
    if ext in ImageInputs {
      assert |ext| >= 4 && ext[0] == '.';
      assert ext[1] in "jphwbtip";
    }
    if ext in VideoInputs {
      assert ext[1] in "mawfg";
    }
  }

  /** The settings panel: the selected mode and the selected format token. */
  datatype Settings = Settings(mode: Mode, format: string)

  /** The format shown is always one the current mode offers. */
  predicate ValidSettings(s: Settings) {
    s.format in FormatsFor(s.mode)
  }

  /** At start-up the mode switch shows Image and the menu its first entry. */
  const InitialSettings: Settings := Settings(Image, "PNG")

  /** Switching mode loads that mode's list and selects its first entry. */
  function SwitchMode(s: Settings, mode: Mode): (r: Settings)
    ensures r.mode == mode
    ensures ValidSettings(r)
    ensures |FormatsFor(mode)| > 0 && r.format == FormatsFor(mode)[0]
  {
    Settings(mode, FormatsFor(mode)[0])
  }

  lemma InitialSettingsValid()
    ensures ValidSettings(InitialSettings)
    ensures InitialSettings == SwitchMode(InitialSettings, Image)
  {
  }

  /** Each mode's menu lists every token once. */
  lemma FormatsDistinct(mode: Mode)
    ensures forall i, j :: 0 <= i < j < |FormatsFor(mode)| ==> FormatsFor(mode)[i] != FormatsFor(mode)[j]
  {
  }

  /** The examples the extension tables are usually quoted by. */
  lemma ClassExamples()
    ensures ClassOf(".gif") == VideoClass
    ensures ClassOf(".pdf") == ImageClass
    ensures ClassOf(".aac") == AudioClass
    ensures ClassOf(".txt") == UnknownClass
    ensures ClassOf(".MOV") == UnknownClass
  {
  }
}

=== FILE: codec.dfy ===
/**
 What the converter asks of its codec libraries. Each library call is an
 oracle that either finishes or raises with a message; the encoding plan
 handed to it is computed here.
 */
module Codec {
  import opened Wrappers

  /** A library call: it finishes with a value or raises an exception carrying a message. */
  datatype Attempt<+T> = Done(value: T) | Raised(message: string)

  /** What opening an image reports: its pixel mode (`"RGB"`, `"RGBA"`, `"LA"`, ...) and its size. */
  datatype ImageInfo = ImageInfo(pixelMode: string, width: nat, height: nat)

  /** How the image is written: as an Apple icon container, or in the format the file extension names. */
  datatype Container = IcnsContainer | ByExtension

  /** One image save: the picture as it is written, the container, and the quality setting if any. */
  datatype ImagePlan = ImagePlan(source: string, dest: string, output: ImageInfo, container: Container, quality: Option<nat>)

  /** The quality passed with every non-icon save; icon saves pass none. */
  const SaveQuality: nat := 95

  /** Side of the square canvas an icon is resized to. */
  const IconSide: nat := 1024

  /** Target formats that cannot hold transparency. */
  const FlattenTargets: seq<string> := ["jpeg", "jpg", "bmp"]

  /** Source pixel modes that are flattened for such targets. */
  const AlphaModes: seq<string> := ["RGBA", "LA"]

  /** The image branch of a run, for the lower-cased target `fmt` and the opened image `info`. */
  function PlanImage(fmt: string, source: string, dest: string, info: ImageInfo): (p: ImagePlan)
    ensures p.source == source && p.dest == dest
    ensures fmt == "icns" ==> p.container == IcnsContainer && p.quality == None
    ensures fmt != "icns" ==> p.container == ByExtension && p.quality == Some(SaveQuality)
    ensures fmt != "icns" ==> p.output.width == info.width && p.output.height == info.height
  {
    if fmt == "icns" then
      ImagePlan(source, dest, ImageInfo("RGBA", IconSide, IconSide), IcnsContainer, None)
    else if fmt in FlattenTargets && info.pixelMode in AlphaModes then
      ImagePlan(source, dest, ImageInfo("RGB", info.width, info.height), ByExtension, Some(SaveQuality))
    else
      ImagePlan(source, dest, info, ByExtension, Some(SaveQuality))
  }

  /** An icon is always written with an alpha channel on a 1024 by 1024 canvas, whatever was opened. */
  lemma IconIsSquareWithAlpha(source: string, dest: string, info: ImageInfo)
    ensures PlanImage("icns", source, dest, info).output == ImageInfo("RGBA", 1024, 1024)
    ensures PlanImage("icns", source, dest, info).output.pixelMode in AlphaModes
  {
  }

  /** For a JPEG, JPG or BMP target no alpha mode is passed on; every other target keeps the opened mode. */
  lemma FlattenOnlyForOpaqueTargets(fmt: string, source: string, dest: string, info: ImageInfo)
    requires fmt != "icns"
    ensures fmt in FlattenTargets ==> PlanImage(fmt, source, dest, info).output.pixelMode !in AlphaModes
    ensures fmt in FlattenTargets && info.pixelMode in AlphaModes ==> PlanImage(fmt, source, dest, info).output.pixelMode == "RGB"
    ensures fmt in FlattenTargets && info.pixelMode !in AlphaModes ==> PlanImage(fmt, source, dest, info).output == info
    ensures fmt !in FlattenTargets ==> PlanImage(fmt, source, dest, info).output == info
  {
  }

  /** The video branch: an animated GIF writer, or a container with a video codec and AAC sound. */
  datatype VideoPlan =
    | GifPlan(source: string, dest: string)
    | FilePlan(source: string, dest: string, codec: string, audioCodec: string)

  function PlanVideo(fmt: string, source: string, dest: string): (p: VideoPlan)
    ensures p.source == source && p.dest == dest
    ensures p.GifPlan? <==> fmt == "gif"
    ensures p.FilePlan? ==> p.audioCodec == "aac"
    ensures p.FilePlan? ==> (p.codec == "libvpx" <==> fmt == "webm")
    ensures p.FilePlan? ==> (p.codec == "libx264" <==> fmt != "webm")
  {
    if fmt == "gif" then GifPlan(source, dest)
    else FilePlan(source, dest, if fmt == "webm" then "libvpx" else "libx264", "aac")
  }

  /** The audio branch: the sound track written with the library's default settings. */
  datatype AudioPlan = AudioPlan(source: string, dest: string)

  /**
   The codec libraries as seen from a run: opening an image, saving one, and
   writing a video or audio file. Each call finishes or raises.
   */
  datatype Codecs = Codecs(
    openImage: string -> Attempt<ImageInfo>,
    saveImage: ImagePlan -> Attempt<()>,
    writeVideo: VideoPlan -> Attempt<()>,
    writeAudio: AudioPlan -> Attempt<()>)
}

=== FILE: live.dfy ===
/**
 The run loop as the program actually executes it: `for i, filepath in
 enumerate(self.files_to_convert)` walks the live queue list while the
 window stays usable, and `total` is read once before the loop. Adding or
 removing a queue entry during a run therefore changes which items the loop
 visits, while progress is still divided by the old total.
 */
module LiveRun {
  import opened Queue
  import opened Runner

  /** A queue action the window allows while a run is in progress, taking effect during item i. */
  datatype Edit = KeepQueue | AddPath(path: string) | RemovePath(path: string) | ClearQueue

  datatype LiveResult = LiveResult(outcomes: seq<Outcome>, progress: seq<ProgressEvent>)

  /** No edit from item `i` on changes the queue. */
  predicate Quiet(edits: seq<Edit>, i: nat) {
    forall j :: i <= j < |edits| ==> edits[j] == KeepQueue
  }

  /**
   The loop from item `i` on. `list` is the list object the iterator walks;
   `attached` is false once `clear_list` has rebound the queue attribute to a
   fresh list, after which edits no longer reach the iterated list. `edits[i]`
   happens while item `i` is converted. Progress is always divided by the
   `total` read before the loop, whatever the list has become. When the list
   can no longer change, the loop visits exactly its remaining entries.
   */
  function LiveLoop(step: string -> Outcome, list: seq<string>, attached: bool, edits: seq<Edit>, i: nat, total: nat): (r: LiveResult)
    ensures |r.outcomes| == |r.progress|
    ensures i >= |list| ==> r.outcomes == []
    ensures forall k :: 0 <= k < |r.progress| ==> r.progress[k] == ProgressEvent(i + k + 1, total)
    ensures !attached || Quiet(edits, i) ==>
      |r.outcomes| == (if i < |list| then |list| - i else 0) &&
      forall k :: 0 <= k < |r.outcomes| ==> r.outcomes[k] == step(list[i + k])
    decreases if i < |edits| then |edits| - i else 0, |list| - i
  {
    if i >= |list| then LiveResult([], [])
    else
      var o := step(list[i]);
      var edit := if i < |edits| then edits[i] else KeepQueue;
      var next :=
        if !attached then (list, false)
        else match edit
          case KeepQueue => (list, true)
          case AddPath(p) => (AddItem(list, p), true)
          case RemovePath(p) => (RemoveItem(list, p), true)
          case ClearQueue => (list, false);
      var rest := LiveLoop(step, next.0, next.1, edits, i + 1, total);
      LiveResult([o] + rest.outcomes, [ProgressEvent(i + 1, total)] + rest.progress)
  }

  /**
   `convert_process` as written: `total` is the length when the thread
   starts, and progress after the k-th visited item is k of that total
   however many items are visited. Without edits every queued item is
   visited once, in queue order.
   */
  function LiveProcess(step: string -> Outcome, queue: seq<string>, edits: seq<Edit>): (r: LiveResult)
    ensures forall k :: 0 <= k < |r.progress| ==> r.progress[k] == ProgressEvent(k + 1, |queue|)
    ensures Quiet(edits, 0) ==>
      |r.outcomes| == |queue| && forall k :: 0 <= k < |queue| ==> r.outcomes[k] == step(queue[k])
  {
    LiveLoop(step, queue, true, edits, 0, |queue|)
  }

  /**
   `clear_list` rebinds the queue attribute to a new list, so clearing the
   queue while the first item converts does not stop the run: the loop
   still visits every item it started with, whatever edits follow.
   */
  lemma ClearDuringRunIsIgnored(step: string -> Outcome, queue: seq<string>, edits: seq<Edit>)
    requires |queue| >= 1 && |edits| >= 1 && edits[0] == ClearQueue
    ensures |LiveProcess(step, queue, edits).outcomes| == |queue|
    ensures forall k :: 0 <= k < |queue| ==> LiveProcess(step, queue, edits).outcomes[k] == step(queue[k])
  {
    var rest := LiveLoop(step, queue, false, edits, 1, |queue|);
    assert LiveProcess(step, queue, edits).outcomes == [step(queue[0])] + rest.outcomes;
  }

  /** With no edit during the run, the live loop is the snapshot fold. */
  lemma LiveWithoutEditsIsFold(step: string -> Outcome, queue: seq<string>, i: nat)
    requires i <= |queue|
    ensures LiveLoop(step, queue, true, [], i, |queue|).outcomes == Fold(step, queue).outcomes[i..]
    ensures LiveLoop(step, queue, true, [], i, |queue|).progress == Fold(step, queue).progress[i..]
  {
    var r := LiveLoop(step, queue, true, [], i, |queue|);
    var f := Fold(step, queue);
    assert Quiet([], i);
    assert forall k :: 0 <= k < |r.outcomes| ==> r.outcomes[k] == f.outcomes[i..][k];
    assert forall k :: 0 <= k < |r.progress| ==> r.progress[k] == f.progress[i..][k];
  }

  /**
   Removing the item being converted shifts the list under the iterator: of
   three queued files the middle one is never visited, the counters add up
   to two of three, and the bar stops at 2/3.
   */
  lemma RemovalSkipsAnItem(step: string -> Outcome, a: string, b: string, c: string)
    requires a != b && b != c && a != c
    ensures LiveProcess(step, [a, b, c], [RemovePath(a)]).outcomes == [step(a), step(c)]
    ensures LiveProcess(step, [a, b, c], [RemovePath(a)]).progress == [ProgressEvent(1, 3), ProgressEvent(2, 3)]
  {
    assert RemoveItem([a, b, c], a) == [b, c] by {
      assert IndexOf([a, b, c], a) == 0;
    }
    var r2 := LiveLoop(step, [b, c], true, [RemovePath(a)], 2, 3);
    assert r2 == LiveResult([], []);
    var r1 := LiveLoop(step, [b, c], true, [RemovePath(a)], 1, 3);
    assert r1 == LiveResult([step(c)], [ProgressEvent(2, 3)]);
  }

  /**
   Adding a file while the only queued file converts makes the loop visit
   the new file too, and the bar is set to 2/1.
   */
  lemma AdditionOvershootsTotal(step: string -> Outcome, a: string, b: string)
    requires a != b
    ensures LiveProcess(step, [a], [AddPath(b)]).outcomes == [step(a), step(b)]
    ensures LiveProcess(step, [a], [AddPath(b)]).progress == [ProgressEvent(1, 1), ProgressEvent(2, 1)]
    ensures Fraction(LiveProcess(step, [a], [AddPath(b)]).progress[1]) == 2.0
  {
    assert AddItem([a], b) == [a, b];
    var r2 := LiveLoop(step, [a, b], true, [AddPath(b)], 2, 1);
    assert r2 == LiveResult([], []);
    var r1 := LiveLoop(step, [a, b], true, [AddPath(b)], 1, 1);
    assert r1 == LiveResult([step(b)], [ProgressEvent(2, 1)]);
  }

  /**
   The corrected run works on the snapshot taken at the start: every
   snapshot item is visited once and the bar ends at exactly 1.
   */
  lemma SnapshotRunIsComplete(step: string -> Outcome, queue: seq<string>)
    requires queue != []
    ensures |Fold(step, queue).outcomes| == |queue|
    ensures Fraction(Fold(step, queue).progress[|queue| - 1]) == 1.0
    ensures forall i :: 0 <= i < |queue| ==> Fraction(Fold(step, queue).progress[i]) <= 1.0
  {
    ProgressMonotone(|queue|);
  }
}

=== FILE: paths.dfy ===
/**
 The path arithmetic the converter does with `pathlib` and `os.path`: the
 final component of a path, its suffix and stem, POSIX joining, and the
 destination path of one conversion.
 */
module Paths {
  import opened Text

  /** `Path(p).name`: the text after the last `/`. */
  function Name(path: string): (r: string)
    ensures '/' !in r
    ensures |r| <= |path| && path[|path| - |r|..] == r
    ensures |r| < |path| ==> path[|path| - |r| - 1] == '/'
  {
    path[RFind(path, '/') + 1..]
  }

  /** Position of the dot that starts a suffix, or -1: `rfind('.')` strictly inside the name. */
  function SuffixDot(name: string): (i: int)
    ensures i == -1 || 0 < i < |name| - 1
  {
    var i := RFind(name, '.');
    if 0 < i < |name| - 1 then i else -1
  }

  /** `Path(name).suffix`: empty, or a dot followed by at least one dot-free character. */
  function Suffix(name: string): (r: string)
    ensures r == [] || (|r| >= 2 && r[0] == '.' && '.' !in r[1..])
  {
    var i := SuffixDot(name);
    if i < 0 then [] else name[i..]
  }

  /** `Path(name).stem`: the name without its suffix. */
  function Stem(name: string): (r: string)
    ensures name != [] ==> r != []
  {
    var i := SuffixDot(name);
    if i < 0 then name else name[..i]
  }

  /** Stem and suffix split the name without losing or adding a character. */
  lemma StemSuffixSplit(name: string)
    ensures Stem(name) + Suffix(name) == name
  {
  }

  /** Lower-casing the name lower-cases its suffix and nothing moves. */
  lemma SuffixLower(name: string)
    ensures Suffix(Lower(name)) == Lower(Suffix(name))
  {
    SuffixDotLower(name);
    var i := SuffixDot(name);
    if i >= 0 {
      LowerSuffixSlice(name, i);
    }
  }

  lemma SuffixDotLower(name: string)
    ensures SuffixDot(Lower(name)) == SuffixDot(name)
  {
    var t := Lower(name);
    assert |t| == |name|;
    assert RFind(t, '.') == RFind(name, '.') by {
      RFindLower(name, '.');
    }
  }

  /** A name built as `stem + "." + ext` splits back into exactly those parts. */
  lemma {:induction false} SuffixOfBuiltName(stem: string, ext: string)
    requires stem != [] && ext != [] && '.' !in ext
    ensures Suffix(stem + "." + ext) == "." + ext
    ensures Stem(stem + "." + ext) == stem
  {
    var name := stem + "." + ext;
    RFindAppend(stem + ".", ext, '.');
    assert name == (stem + ".") + ext;
    assert RFind(stem + ".", '.') == |stem|;
    assert name[..|stem|] == stem;
  }

  /**
   `os.path.join(dir, name)` on POSIX: an absolute `name` replaces `dir`;
   otherwise `name` follows `dir`, with one `/` inserted unless `dir` is empty
   or already ends with one.
   */
  function Join(dir: string, name: string): (r: string)
    ensures name != [] && name[0] == '/' ==> r == name
    ensures (name == [] || name[0] != '/') && (dir == [] || dir[|dir| - 1] == '/') ==> r == dir + name
    ensures (name == [] || name[0] != '/') && dir != [] && dir[|dir| - 1] != '/' ==> r == dir + "/" + name
    ensures (name == [] || name[0] != '/') ==> |dir| <= |r| && r[..|dir|] == dir
    ensures |r| >= |name| && r[|r| - |name|..] == name
  {
    if name != [] && name[0] == '/' then name
    else if dir == [] || dir[|dir| - 1] == '/' then dir + name
    else dir + "/" + name
  }

  /** Joining a plain file name onto a directory keeps that name as the last component. */
  lemma NameOfJoin(dir: string, name: string)
    requires '/' !in name
    ensures Name(Join(dir, name)) == name
  {
    var j := Join(dir, name);
    if dir == [] {
      assert j == name;
    } else if dir[|dir| - 1] == '/' {
      RFindAppend(dir, name, '/');
      assert j[..|dir|] == dir;
    } else {
      RFindAppend(dir + "/", name, '/');
      assert j == (dir + "/") + name;
    }
  }

  /**
   The output file of a conversion: `<out_dir>/<stem>.<fmt>`, `fmt` already
   lower-cased. It always lies inside `out_dir`, under a name made of the
   source's stem, a dot and the format.
   */
  function DestPath(outDir: string, source: string, fmt: string): (r: string)
    ensures |outDir| + |fmt| + 1 <= |r| && r[..|outDir|] == outDir
    ensures EndsWith(r, "." + fmt)
  {
    var stem := Stem(Name(source));
    StemHasNoSlash(source);
    JoinBuiltName(outDir, stem, fmt);
    Join(outDir, stem + "." + fmt)
  }

  /** Joining `stem.fmt` onto a directory keeps the directory as prefix and `.fmt` as tail. */
  lemma JoinBuiltName(dir: string, stem: string, fmt: string)
    requires '/' !in stem
    ensures |dir| + |fmt| + 1 <= |Join(dir, stem + "." + fmt)|
    ensures Join(dir, stem + "." + fmt)[..|dir|] == dir
    ensures EndsWith(Join(dir, stem + "." + fmt), "." + fmt)
  {
    var name := stem + "." + fmt;
    NotAbsolute(stem, fmt);
    var r := Join(dir, name);
    assert EndsWith(r, name);
    assert EndsWith(name, "." + fmt) by {
      assert name == stem + ("." + fmt);
    }
    EndsWithTrans(r, name, "." + fmt);
  }

  /** `s` ends with `t`. */
  predicate EndsWith(s: string, t: string) {
    |t| <= |s| && s[|s| - |t|..] == t
  }

  lemma EndsWithTrans(s: string, t: string, u: string)
    requires EndsWith(s, t) && EndsWith(t, u)
    ensures EndsWith(s, u)
  {
    assert s[|s| - |u|..] == s[|s| - |t|..][|t| - |u|..];
  }

  lemma NotAbsolute(stem: string, fmt: string)
    requires '/' !in stem
    ensures (stem + "." + fmt)[0] != '/'
  {
    if stem != [] {
      assert (stem + "." + fmt)[0] == stem[0];
    }
  }

  /** The stem of a file name contains no `/`. */
  lemma StemHasNoSlash(source: string)
    ensures '/' !in Stem(Name(source))
  {
    var stem := Stem(Name(source));
    StemSuffixSplit(Name(source));
    assert forall k :: 0 <= k < |stem| ==> stem[k] == Name(source)[k];
  }

  /**
   The destination replaces the source's extension by the format instead of
   appending to it: its name has the source's stem and exactly the new suffix.
   */
  lemma DestReplacesExtension(outDir: string, source: string, fmt: string)
    requires Name(source) != [] && fmt != [] && '.' !in fmt && '/' !in fmt
    ensures Name(DestPath(outDir, source, fmt)) == Stem(Name(source)) + "." + fmt
    ensures Stem(Name(DestPath(outDir, source, fmt))) == Stem(Name(source))
    ensures Suffix(Name(DestPath(outDir, source, fmt))) == "." + fmt
    ensures DestPath(outDir, source, fmt)[..|outDir|] == outDir
  {
    var stem := Stem(Name(source));
    StemHasNoSlash(source);
    NameOfJoin(outDir, stem + "." + fmt);
    SuffixOfBuiltName(stem, fmt);
  }

  /** The worked example: `/a/b/clip.MOV` converted to `MP4` into `/out` gives `/out/clip.mp4`. */
  lemma DestExample(source: string, format: string)
    requires source == "/a/b/clip.MOV" && format == "MP4"
    ensures DestPath("/out", source, Lower(format)) == "/out/clip.mp4"
  {
    ExampleName(source, "clip.MOV");
    ExampleStem("clip.MOV");
    ExampleLower(format);
    ExampleJoin(Lower(format));
  }

  lemma ExampleName(source: string, name: string)
    requires source == "/a/b/clip.MOV" && name == "clip.MOV"
    ensures Name(source) == name
  {
    NameOfJoin("/a/b", name);
    assert Join("/a/b", name) == source;
  }

  lemma ExampleStem(name: string)
    requires name == "clip.MOV"
    ensures Stem(name) == "clip"
  {
    SuffixOfBuiltName("clip", "MOV");
    assert "clip" + "." + "MOV" == name;
  }

  lemma ExampleLower(format: string)
    requires format == "MP4"
    ensures Lower(format) == "mp4"
  {
  }

  lemma ExampleJoin(fmt: string)
    requires fmt == "mp4"
    ensures Join("/out", "clip" + "." + fmt) == "/out/clip.mp4"
  {
  }
}

=== FILE: queue.dfy ===
/**
 The conversion queue: an ordered list of source paths with no path twice.
 It changes only by adding one path, adding the accepted files of a walked
 folder, removing one path, or clearing.
 */
module Queue {
  import opened Text
  import opened Catalog
  import opened Paths

  predicate NoDuplicates(q: seq<string>) {
    forall i, j :: 0 <= i < j < |q| ==> q[i] != q[j]
  }

  /** `add_item`: a path already queued is ignored, a new one goes to the end. */
  function AddItem(q: seq<string>, path: string): (r: seq<string>)
    ensures path in q ==> r == q
    ensures path !in q ==> r == q + [path]
    ensures NoDuplicates(q) ==> NoDuplicates(r)
    ensures forall x :: x in r <==> x in q || x == path
    ensures |q| <= |r| && r[..|q|] == q
  {
    if path in q then q else q + [path]
  }

  /** `add_files`: `add_item` on every chosen path, in dialog order. */
  function AddFiles(q: seq<string>, paths: seq<string>): (r: seq<string>)
    ensures NoDuplicates(q) ==> NoDuplicates(r)
    ensures forall x :: x in r <==> x in q || x in paths
    ensures |q| <= |r| <= |q| + |paths| && r[..|q|] == q
    decreases |paths|
  {
    if paths == [] then q
    else
      var r := AddFiles(AddItem(q, paths[0]), paths[1..]);
      assert forall x :: x in paths <==> x == paths[0] || x in paths[1..];
      r
  }

  /**
   The entries `add_files` appends are the chosen paths not yet queued, each
   once, ordered by where they first appear in the dialog's list.
   */
  lemma {:induction false} AddFilesOrder(q: seq<string>, paths: seq<string>)
    ensures forall k :: |q| <= k < |AddFiles(q, paths)| ==> AddFiles(q, paths)[k] in paths && AddFiles(q, paths)[k] !in q
    ensures forall k1, k2 :: |q| <= k1 < k2 < |AddFiles(q, paths)| ==>
      IndexOf(paths, AddFiles(q, paths)[k1]) < IndexOf(paths, AddFiles(q, paths)[k2])
    decreases |paths|
  {
    if paths != [] {
      var q' := AddItem(q, paths[0]);
      var tail := paths[1..];
      var r := AddFiles(q', tail);
      assert r == AddFiles(q, paths);
      AddFilesOrder(q', tail);
      forall k | |q| <= k < |r|
        ensures r[k] in paths && r[k] !in q
        ensures k >= |q'| ==> IndexOf(paths, r[k]) == 1 + IndexOf(tail, r[k])
        ensures k < |q'| ==> r[k] == paths[0] && IndexOf(paths, r[k]) == 0
      {
        if k >= |q'| {
          assert r[k] in tail && r[k] != paths[0];
        } else {
          assert r[k] == q'[k];
        }
      }
    }
  }

  /** Position of the first occurrence of `x` (`list.index`). */
  function IndexOf(q: seq<string>, x: string): (i: nat)
    requires x in q
    ensures i < |q| && q[i] == x && x !in q[..i]
  {
    if q[0] == x then 0
    else
      var i := 1 + IndexOf(q[1..], x);
      assert q[..i] == [q[0]] + q[1..][..i - 1];
      i
  }

  /** `remove_item`: `list.remove` of the first occurrence when the path is queued, otherwise nothing. */
  function RemoveItem(q: seq<string>, path: string): (r: seq<string>)
    ensures path !in q ==> r == q
    ensures path in q ==> |r| == |q| - 1
    ensures path in q ==> r == q[..IndexOf(q, path)] + q[IndexOf(q, path) + 1..]
    ensures NoDuplicates(q) ==> NoDuplicates(r) && path !in r
    ensures NoDuplicates(q) ==> forall x :: x in r <==> x in q && x != path
  {
    if path !in q then q
    else
      var i := IndexOf(q, path);
      var r := q[..i] + q[i + 1..];
      assert forall k :: 0 <= k < |r| ==> r[k] == (if k < i then q[k] else q[k + 1]);
      r
  }

  /** The reference meaning of removal: every entry other than `path`, in queue order. */
  function Without(q: seq<string>, path: string): (r: seq<string>)
    ensures path !in r
    decreases |q|
  {
    if q == [] then []
    else if q[0] == path then Without(q[1..], path)
    else [q[0]] + Without(q[1..], path)
  }

  /** On a duplicate-free queue, removing the first occurrence is filtering the path out. */
  lemma {:induction false} RemoveItemIsWithout(q: seq<string>, path: string)
    requires NoDuplicates(q)
    ensures RemoveItem(q, path) == Without(q, path)
    decreases |q|
  {
    if q != [] {
      assert NoDuplicates(q[1..]);
      RemoveItemIsWithout(q[1..], path);
      if q[0] == path {
        assert path !in q[1..];
        WithoutAbsent(q[1..], path);
      } else if path in q {
        RemoveItemCons(q, path);
      } else {
        WithoutAbsent(q[1..], path);
      }
    }
  }

  /** Removing a path that is not at the head keeps the head and removes it from the tail. */
  lemma RemoveItemCons(q: seq<string>, path: string)
    requires q != [] && q[0] != path && path in q
    ensures RemoveItem(q, path) == [q[0]] + RemoveItem(q[1..], path)
  {
    var i := IndexOf(q, path);
    var t := q[1..];
    var j := IndexOf(t, path);
    assert i == j + 1;
    assert q[..i] == [q[0]] + t[..j];
    assert q[i + 1..] == t[j + 1..];
    assert RemoveItem(t, path) == t[..j] + t[j + 1..];
  }

  lemma {:induction false} WithoutAbsent(q: seq<string>, path: string)
    requires path !in q
    ensures Without(q, path) == q
    decreases |q|
  {
    if q != [] {
      WithoutAbsent(q[1..], path);
    }
  }

  /** `clear_list`: the queue becomes empty whatever it held. */
  function ClearList(q: seq<string>): (r: seq<string>)
    ensures |r| == 0
  {
    []
  }

  /** One file reported by the folder walk: its directory and its bare name. */
  datatype WalkedFile = WalkedFile(root: string, file: string)

  /**
   The folder-import filter: the lower-cased suffix is a recognised input
   extension, so exactly the files that get a media class in the queue.
   */
  predicate Accepted(file: string): (b: bool)
    ensures b <==> ClassOf(Lower(Suffix(file))) != UnknownClass
    ensures b ==> |Suffix(file)| >= 2
  {
    Lower(Suffix(file)) in AllValid
  }

  /** Suffix case plays no part in the filter. */
  lemma AcceptedIgnoresCase(f: string, g: string)
    requires Lower(f) == Lower(g)
    ensures Accepted(f) <==> Accepted(g)
  {
    SuffixLower(f);
    SuffixLower(g);
  }

  /** The path `os.path.join(root, file)` under which a walked file is queued. */
  function WalkedPath(w: WalkedFile): string {
    Join(w.root, w.file)
  }

  /** The paths `pathOf` gives the walked files whose name `keep` accepts, in walk order. */
  function KeptPaths(keep: string -> bool, pathOf: WalkedFile -> string, walked: seq<WalkedFile>): seq<string>
    decreases |walked|
  {
    if walked == [] then []
    else
      var w := walked[|walked| - 1];
      KeptPaths(keep, pathOf, walked[..|walked| - 1]) + (if keep(w.file) then [pathOf(w)] else [])
  }

  /** Exactly the walked files `keep` accepts contribute their path. */
  lemma {:induction false} KeptPathsMembers(keep: string -> bool, pathOf: WalkedFile -> string, walked: seq<WalkedFile>)
    ensures forall w :: w in walked && keep(w.file) ==> pathOf(w) in KeptPaths(keep, pathOf, walked)
    ensures forall p :: p in KeptPaths(keep, pathOf, walked) ==> exists w :: w in walked && keep(w.file) && p == pathOf(w)
    decreases |walked|
  {
    if walked != [] {
      var front := walked[..|walked| - 1];
      assert walked == front + [walked[|walked| - 1]];
      KeptPathsMembers(keep, pathOf, front);
    }
  }

  /** Filtering a walk that visits `a` and then `b` gives the paths kept from `a`, then those kept from `b`. */
  lemma {:induction false} KeptPathsAppend(keep: string -> bool, pathOf: WalkedFile -> string, a: seq<WalkedFile>, b: seq<WalkedFile>)
    ensures KeptPaths(keep, pathOf, a + b) == KeptPaths(keep, pathOf, a) + KeptPaths(keep, pathOf, b)
    decreases |b|
  {
    if b == [] {
      assert a + b == a;
    } else {
      var front := b[..|b| - 1];
      var w := b[|b| - 1];
      var tail := if keep(w.file) then [pathOf(w)] else [];
      var ab := a + b;
      assert ab[..|ab| - 1] == a + front;
      assert ab[|ab| - 1] == w;
      assert KeptPaths(keep, pathOf, ab) == KeptPaths(keep, pathOf, a + front) + tail;
      assert KeptPaths(keep, pathOf, b) == KeptPaths(keep, pathOf, front) + tail;
      KeptPathsAppend(keep, pathOf, a, front);
    }
  }

  /** The folder import's candidates: the joined paths of the accepted walked files, in walk order. */
  function FolderCandidates(walked: seq<WalkedFile>): (r: seq<string>)
    ensures forall w :: w in walked && Accepted(w.file) ==> WalkedPath(w) in r
    ensures forall p :: p in r ==> exists w :: w in walked && Accepted(w.file) && p == WalkedPath(w)
  {
    KeptPathsMembers(Accepted, WalkedPath, walked);
    KeptPaths(Accepted, WalkedPath, walked)
  }

  /**
   Walk order is kept: the candidates of a walk that visits `a` and then `b`
   are those of `a` followed by those of `b`.
   */
  lemma FolderCandidatesAppend(a: seq<WalkedFile>, b: seq<WalkedFile>)
    ensures FolderCandidates(a + b) == FolderCandidates(a) + FolderCandidates(b)
  {
    KeptPathsAppend(Accepted, WalkedPath, a, b);
  }

  /** A walk of one file yields its joined path exactly when the filter accepts it. */
  lemma FolderCandidatesOne(w: WalkedFile)
    ensures FolderCandidates([w]) == if Accepted(w.file) then [WalkedPath(w)] else []
  {
    assert [w][..0] == [];
    assert KeptPaths(Accepted, WalkedPath, [w]) == KeptPaths(Accepted, WalkedPath, []) + (if Accepted(w.file) then [WalkedPath(w)] else []);
  }

  /**
   `add_folder`: a cancelled folder choice (empty string) leaves the queue
   alone; otherwise every accepted walked file is added with `add_item`, in
   walk order.
   */
  function AddFolder(q: seq<string>, folder: string, walked: seq<WalkedFile>): (r: seq<string>)
    ensures folder == "" ==> r == q
    ensures NoDuplicates(q) ==> NoDuplicates(r)
    ensures folder != "" ==> forall p :: p in r <==> p in q || p in FolderCandidates(walked)
    ensures |q| <= |r| && r[..|q|] == q
    ensures folder != "" ==> forall k :: |q| <= k < |r| ==> r[k] in FolderCandidates(walked) && r[k] !in q
    ensures folder != "" ==>
      forall k1, k2 :: |q| <= k1 < k2 < |r| ==>
        IndexOf(FolderCandidates(walked), r[k1]) < IndexOf(FolderCandidates(walked), r[k2])
  {
    if folder == "" then q
    else
      AddFilesOrder(q, FolderCandidates(walked));
      AddFiles(q, FolderCandidates(walked))
  }

  /** A folder import never brings in a file the filter rejects, and brings in every one it accepts. */
  lemma AddFolderOnlyAccepted(q: seq<string>, folder: string, walked: seq<WalkedFile>, w: WalkedFile)
    requires forall v :: v in walked ==> '/' !in v.file
    requires w in walked && WalkedPath(w) !in q
    ensures WalkedPath(w) in AddFolder(q, folder, walked) <==> folder != "" && Accepted(w.file)
  {
    var p := WalkedPath(w);
    if p in AddFolder(q, folder, walked) {
      assert folder != "";
      var v :| v in walked && Accepted(v.file) && p == WalkedPath(v);
      assert v.file == w.file by {
        NameOfJoin(v.root, v.file);
        NameOfJoin(w.root, w.file);
      }
    }
  }
}

=== FILE: report.dfy ===
/**
 The report shown when a run finishes: the number converted, then a line for
 skipped files only if there were any, then a line for errors only if there
 were any. A reader of the message recovers the three counts exactly.
 */
module Report {
  import opened Wrappers
  import opened Text

  const CompletedLabel: string := "Completed: "
  const SkippedLabel: string := "Skipped: "
  const SkippedNote: string := " (Incompatible)"
  const ErrorsLabel: string := "Errors: "

  /** `finish`: the report text for the run's counters and error list. */
  function FinishMessage(success: nat, skipped: nat, errors: seq<string>): (msg: string)
    ensures |msg| > |CompletedLabel| && msg[..|CompletedLabel|] == CompletedLabel
  {
    var head := HeadLine(success);
    var withSkipped := if skipped > 0 then head + "\n" + SkippedLine(skipped) else head;
    if |errors| > 0 then withSkipped + "\n" + ErrorsLine(|errors|) else withSkipped
  }

  function SkippedLine(skipped: nat): string {
    SkippedLabel + NatToString(skipped) + SkippedNote
  }

  function ErrorsLine(count: nat): string {
    ErrorsLabel + NatToString(count)
  }

  /** The three numbers a report carries. */
  datatype Summary = Summary(completed: nat, skipped: nat, errors: nat)

  function ParseCompleted(line: string): Option<nat> {
    if |line| >= |CompletedLabel| && line[..|CompletedLabel|] == CompletedLabel
    then ParseNat(line[|CompletedLabel|..])
    else None
  }

  function ParseSkipped(line: string): Option<nat> {
    if |line| >= |SkippedLabel| + |SkippedNote|
       && line[..|SkippedLabel|] == SkippedLabel
       && line[|line| - |SkippedNote|..] == SkippedNote
    then ParseNat(line[|SkippedLabel|..|line| - |SkippedNote|])
    else None
  }

  function ParseErrors(line: string): Option<nat> {
    if |line| >= |ErrorsLabel| && line[..|ErrorsLabel|] == ErrorsLabel
    then ParseNat(line[|ErrorsLabel|..])
    else None
  }

  /** Reads a report back: a Completed line, then optionally a positive Skipped line, then optionally a positive Errors line. */
  function ParseReport(msg: string): Option<Summary> {
    ParseLines(SplitLines(msg))
  }

  function ParseLines(lines: seq<string>): Option<Summary>
    requires |lines| >= 1
  {
    var c := ParseCompleted(lines[0]);
    if c.None? then None
    else if |lines| == 1 then Some(Summary(c.value, 0, 0))
    else if |lines| == 2 then
      var k := ParseSkipped(lines[1]);
      var e := ParseErrors(lines[1]);
      if k.Some? && k.value > 0 then Some(Summary(c.value, k.value, 0))
      else if e.Some? && e.value > 0 then Some(Summary(c.value, 0, e.value))
      else None
    else if |lines| == 3 then
      var k := ParseSkipped(lines[1]);
      var e := ParseErrors(lines[2]);
      if k.Some? && k.value > 0 && e.Some? && e.value > 0 then Some(Summary(c.value, k.value, e.value))
      else None
    else None
  }

  function HeadLine(success: nat): string {
    CompletedLabel + NatToString(success)
  }

  /** No line of the report contains a newline of its own. */
  lemma LinesAreSingle(success: nat, skipped: nat, count: nat)
    ensures '\n' !in HeadLine(success)
    ensures '\n' !in SkippedLine(skipped)
    ensures '\n' !in ErrorsLine(count)
  {
    assert forall c :: c in NatToString(success) ==> IsDigit(c);
    assert forall c :: c in NatToString(skipped) ==> IsDigit(c);
    assert forall c :: c in NatToString(count) ==> IsDigit(c);
  }

  /** The report has one line, plus one if anything was skipped, plus one if anything failed. */
  lemma FinishLines(success: nat, skipped: nat, errors: seq<string>)
    ensures SplitLines(FinishMessage(success, skipped, errors)) == ReportLines(success, skipped, |errors|)
  {
    var head, sk, er := HeadLine(success), SkippedLine(skipped), ErrorsLine(|errors|);
    LinesAreSingle(success, skipped, |errors|);
    assert SplitLines(head) == [head] by {
      assert RFind(head, '\n') == -1;
    }
    var withSkipped := if skipped > 0 then head + "\n" + sk else head;
    assert SplitLines(withSkipped) == [head] + (if skipped > 0 then [sk] else []) by {
      if skipped > 0 {
        SplitLinesAppend(head, sk);
      }
    }
    if |errors| > 0 {
      SplitLinesAppend(withSkipped, er);
    }
  }

  lemma ParseHeadLine(success: nat)
    ensures ParseCompleted(HeadLine(success)) == Some(success)
  {
    NatToStringRoundTrip(success);
    assert HeadLine(success)[|CompletedLabel|..] == NatToString(success);
  }

  lemma ParseSkippedLine(skipped: nat)
    ensures ParseSkipped(SkippedLine(skipped)) == Some(skipped)
  {
    NatToStringRoundTrip(skipped);
    var line := SkippedLine(skipped);
    assert line[|SkippedLabel|..|line| - |SkippedNote|] == NatToString(skipped);
  }

  lemma ParseErrorsLine(count: nat)
    ensures ParseErrors(ErrorsLine(count)) == Some(count)
    ensures ParseSkipped(ErrorsLine(count)) == None
  {
    NatToStringRoundTrip(count);
    var line := ErrorsLine(count);
    assert line[|ErrorsLabel|..] == NatToString(count);
    assert line[1] == 'r';
  }

  /** The lines of a report, as `FinishLines` lays them out. */
  function ReportLines(success: nat, skipped: nat, count: nat): seq<string> {
    [HeadLine(success)]
    + (if skipped > 0 then [SkippedLine(skipped)] else [])
    + (if count > 0 then [ErrorsLine(count)] else [])
  }

  lemma ParseReportLines(success: nat, skipped: nat, count: nat)
    ensures ParseLines(ReportLines(success, skipped, count)) == Some(Summary(success, skipped, count))
  {
    ParseHeadLine(success);
    ParseSkippedLine(skipped);
    ParseErrorsLine(count);
  }

  /** Reading the report back gives exactly the counters it was written from. */
  lemma FinishRoundTrip(success: nat, skipped: nat, errors: seq<string>)
    ensures ParseReport(FinishMessage(success, skipped, errors)) == Some(Summary(success, skipped, |errors|))
  {
    FinishLines(success, skipped, errors);
    ParseReportLines(success, skipped, |errors|);
  }
}

=== FILE: runner.dfy ===
/**
 The batch run: one pass over a snapshot of the queue, in queue order. Each
 item is skipped, converted, or recorded as an error; an exception from a
 codec never stops the pass. Progress after item i is (i+1)/total.
 */
module Runner {
  import opened Wrappers
  import opened Text
  import opened Catalog
  import opened Paths
  import opened Selector
  import opened Codec
  import opened Report
  import opened Queue

  /** One run as started: the mode and format on the settings panel and the chosen output directory. */
  datatype Request = Request(mode: Mode, format: string, outDir: string)

  /** What happened to one queued file; the row is marked success, warning or error accordingly. */
  datatype Outcome = Converted | Skipped | Failed(message: string)

  /** The lower-cased suffix of the file name, the key of the extension tables. */
  function Extension(path: string): string {
    Lower(Suffix(Name(path)))
  }

  /**
   The error-list entry for an exception: the file's stem, a colon and a
   space, then the exception text unchanged.
   */
  function ErrorEntry(path: string, message: string): (e: string)
    ensures |e| == |Stem(Name(path))| + 2 + |message|
    ensures e[..|Stem(Name(path))|] == Stem(Name(path))
    ensures e[|Stem(Name(path))|..|Stem(Name(path))| + 2] == ": "
    ensures e[|Stem(Name(path))| + 2..] == message
  {
    Stem(Name(path)) + ": " + message
  }

  /** The output file of one item: `<out_dir>/<stem>.<fmt>` with the format token lower-cased. */
  function Destination(req: Request, path: string): string {
    DestPath(req.outDir, path, Lower(req.format))
  }

  /**
   The Kelvin sign lower-cases to `k`, so `clip.M<Kelvin sign>V` has the
   extension `.mkv`: the folder filter takes it and Video mode converts it.
   */
  lemma KelvinSignExtension(path: string)
    requires path == "clip.M\U{212A}V"
    ensures Extension(path) == ".mkv"
    ensures Accepted(Name(path))
    ensures Decide(Video, Extension(path)) == Proceed
  {
    KelvinName(path);
    KelvinSuffix(path, "M\U{212A}V");
    KelvinLower(Suffix(path));
    MkvIsVideo(Extension(path));
  }

  lemma KelvinName(path: string)
    requires path == "clip.M\U{212A}V"
    ensures Name(path) == path
  {
    assert '/' !in path;
  }

  lemma KelvinSuffix(path: string, ext: string)
    requires path == "clip.M\U{212A}V" && ext == "M\U{212A}V"
    ensures Suffix(path) == "." + ext
  {
    SuffixOfBuiltName("clip", ext);
    assert "clip" + "." + ext == path;
  }

  lemma KelvinLower(suffix: string)
    requires suffix == ".M\U{212A}V"
    ensures Lower(suffix) == ".mkv"
  {
    assert Lower(suffix)[2] == 'k';
  }

  lemma MkvIsVideo(ext: string)
    requires ext == ".mkv"
    ensures Decide(Video, ext) == Proceed && ext in AllValid
  {
  }

  /**
   The library work for an item the selector lets through, in the branch of
   the request's mode, with the source path and the item's destination.
   */
  function Encode(req: Request, codecs: Codecs, path: string): Attempt<()> {
    var fmt := Lower(req.format);
    var dest := Destination(req, path);
    match req.mode
    case Image =>
      (match codecs.openImage(path)
       case Raised(m) => Raised(m)
       case Done(info) => codecs.saveImage(PlanImage(fmt, path, dest, info)))
    case Video => codecs.writeVideo(PlanVideo(fmt, path, dest))
    case Audio => codecs.writeAudio(AudioPlan(path, dest))
  }

  /** The library calls a mode makes: Image opens and saves, Video writes video, Audio writes sound. */
  ghost predicate SameLibrary(mode: Mode, c1: Codecs, c2: Codecs) {
    match mode
    case Image =>
      (forall p :: c1.openImage(p) == c2.openImage(p)) && (forall p :: c1.saveImage(p) == c2.saveImage(p))
    case Video => forall p :: c1.writeVideo(p) == c2.writeVideo(p)
    case Audio => forall p :: c1.writeAudio(p) == c2.writeAudio(p)
  }

  /**
   Each mode calls only its own library: two sets of codecs that agree on the
   calls of the request's mode give the same result, whatever the other
   libraries would do.
   */
  lemma EncodeUsesOwnLibrary(req: Request, c1: Codecs, c2: Codecs, path: string)
    requires SameLibrary(req.mode, c1, c2)
    ensures Encode(req, c1, path) == Encode(req, c2, path)
  {
    match req.mode
    case Image =>
      assert c1.openImage(path) == c2.openImage(path);
    case Video =>
    case Audio =>
  }

  /**
   The libraries are consulted only with this item's plan: the source path,
   the destination `<out_dir>/<stem>.<fmt>` with the lower-cased token, and
   the encoding plan of that token. Two sets of codecs that agree on those
   calls, and on opening the source, give the same result.
   */
  lemma EncodeConsultsOnlyItsPlan(req: Request, c1: Codecs, c2: Codecs, path: string)
    requires c1.openImage(path) == c2.openImage(path)
    requires req.mode == Image ==>
      forall info :: c1.saveImage(PlanImage(Lower(req.format), path, Destination(req, path), info))
                  == c2.saveImage(PlanImage(Lower(req.format), path, Destination(req, path), info))
    requires req.mode == Video ==>
      c1.writeVideo(PlanVideo(Lower(req.format), path, Destination(req, path)))
        == c2.writeVideo(PlanVideo(Lower(req.format), path, Destination(req, path)))
    requires req.mode == Audio ==>
      c1.writeAudio(AudioPlan(path, Destination(req, path))) == c2.writeAudio(AudioPlan(path, Destination(req, path)))
    ensures Encode(req, c1, path) == Encode(req, c2, path)
  {
  }

  /**
   An image that cannot be opened is never saved: the opener's error is the
   item's error, and the saver plays no part in the result.
   */
  lemma UnopenedImageNeverSaved(req: Request, c1: Codecs, c2: Codecs, path: string)
    requires req.mode == Image && c1.openImage(path).Raised?
    requires c2.openImage(path) == c1.openImage(path)
    ensures Encode(req, c1, path) == Encode(req, c2, path)
    ensures Encode(req, c1, path) == Raised(c1.openImage(path).message)
  {
  }

  /**
   Only the lower-cased format token reaches the libraries: two requests
   whose formats agree after lower-casing encode alike.
   */
  lemma EncodeIgnoresFormatCase(req1: Request, req2: Request, codecs: Codecs, path: string)
    requires req1.mode == req2.mode && req1.outDir == req2.outDir
    requires Lower(req1.format) == Lower(req2.format)
    ensures Encode(req1, codecs, path) == Encode(req2, codecs, path)
  {
    var dest := Destination(req1, path);
    assert Destination(req2, path) == dest;
    match req1.mode {
      case Image =>
        if codecs.openImage(path).Done? {
          var info := codecs.openImage(path).value;
          assert PlanImage(Lower(req1.format), path, dest, info) == PlanImage(Lower(req2.format), path, dest, info);
        }
      case Video =>
        assert PlanVideo(Lower(req1.format), path, dest) == PlanVideo(Lower(req2.format), path, dest);
      case Audio =>
    }
  }

  /**
   One iteration of the run loop, minus the row marking. A file is skipped
   exactly when the class policy rejects its extension for the mode;
   otherwise it is converted when the library call finishes, and becomes an
   error entry keyed by its stem when the call raises.
   */
  function ConvertItem(req: Request, codecs: Codecs, path: string): (o: Outcome)
    ensures o.Skipped? <==> Select(req.mode, ClassOf(Extension(path))) == Skip
    ensures o.Converted? <==> Select(req.mode, ClassOf(Extension(path))) == Proceed && Encode(req, codecs, path).Done?
    ensures o.Failed? <==> Select(req.mode, ClassOf(Extension(path))) == Proceed && Encode(req, codecs, path).Raised?
    ensures o.Failed? ==> o.message == ErrorEntry(path, Encode(req, codecs, path).message)
  {
    if Decide(req.mode, Extension(path)) == Skip then Skipped
    else
      match Encode(req, codecs, path)
      case Done(_) => Converted
      case Raised(m) => Failed(ErrorEntry(path, m))
  }

  /** The counters of a run: conversions, skips, and the error entries in queue order. */
  datatype Counters = Counters(success: nat, skipped: nat, errors: seq<string>)

  /** A progress report after an item: `done` of `total` items handled. */
  datatype ProgressEvent = ProgressEvent(done: nat, total: nat)

  /** The fraction the progress bar is set to. */
  function Fraction(e: ProgressEvent): real
    requires e.total > 0
  {
    e.done as real / e.total as real
  }

  datatype RunResult = RunResult(outcomes: seq<Outcome>, counters: Counters, progress: seq<ProgressEvent>)

  function Successes(os: seq<Outcome>): nat {
    if os == [] then 0 else Successes(os[..|os| - 1]) + (if os[|os| - 1].Converted? then 1 else 0)
  }

  function Skips(os: seq<Outcome>): nat {
    if os == [] then 0 else Skips(os[..|os| - 1]) + (if os[|os| - 1].Skipped? then 1 else 0)
  }

  function ErrorMessages(os: seq<Outcome>): seq<string> {
    if os == [] then [] else ErrorMessages(os[..|os| - 1]) + (if os[|os| - 1].Failed? then [os[|os| - 1].message] else [])
  }

  /** Every outcome is counted exactly once: as a success, a skip, or an error entry. */
  lemma {:induction false} TallyComplete(os: seq<Outcome>)
    ensures Successes(os) + Skips(os) + |ErrorMessages(os)| == |os|
    decreases |os|
  {
    if os != [] {
      TallyComplete(os[..|os| - 1]);
    }
  }

  /** The per-item step of a run; mode, format, directory and codecs stay fixed for the whole pass. */
  function Step(req: Request, codecs: Codecs): string -> Outcome {
    path => ConvertItem(req, codecs, path)
  }

  /** The outcomes of a pass over `snapshot`, item by item. */
  function Outcomes(step: string -> Outcome, snapshot: seq<string>): seq<Outcome> {
    if snapshot == [] then []
    else Outcomes(step, snapshot[..|snapshot| - 1]) + [step(snapshot[|snapshot| - 1])]
  }

  /** No item's outcome depends on another item's: every item gets its own conversion attempt. */
  lemma {:induction false} OutcomesPointwise(step: string -> Outcome, snapshot: seq<string>)
    ensures |Outcomes(step, snapshot)| == |snapshot|
    ensures forall i :: 0 <= i < |snapshot| ==> Outcomes(step, snapshot)[i] == step(snapshot[i])
    decreases |snapshot|
  {
    if snapshot != [] {
      var front := snapshot[..|snapshot| - 1];
      OutcomesPointwise(step, front);
      assert forall i :: 0 <= i < |front| ==> front[i] == snapshot[i];
    }
  }

  /** One progress event per item, after the item, in queue order. */
  function ProgressTrail(total: nat): seq<ProgressEvent> {
    seq(total, i requires 0 <= i < total => ProgressEvent(i + 1, total))
  }

  /**
   The loop of `convert_process` as a fold over the snapshot, for any
   per-item step. Every item gets its own outcome whatever happened to the
   items before it, and the counters add up to the number of items.
   */
  function Fold(step: string -> Outcome, snapshot: seq<string>): (r: RunResult)
    ensures |r.outcomes| == |snapshot| && |r.progress| == |snapshot|
    ensures forall i :: 0 <= i < |snapshot| ==> r.outcomes[i] == step(snapshot[i])
    ensures r.counters == Counters(Successes(r.outcomes), Skips(r.outcomes), ErrorMessages(r.outcomes))
    ensures r.counters.success + r.counters.skipped + |r.counters.errors| == |snapshot|
    ensures forall i :: 0 <= i < |snapshot| ==> r.progress[i] == ProgressEvent(i + 1, |snapshot|)
  {
    var os := Outcomes(step, snapshot);
    OutcomesPointwise(step, snapshot);
    TallyComplete(os);
    RunResult(os, Counters(Successes(os), Skips(os), ErrorMessages(os)), ProgressTrail(|snapshot|))
  }

  /**
   `convert_process` on the snapshot: item i gets exactly the outcome of
   converting item i with the run's mode, format and directory; the counters
   tally those outcomes; progress after item i is (i+1) of the snapshot's
   length.
   */
  function Run(req: Request, codecs: Codecs, snapshot: seq<string>): (r: RunResult)
    ensures |r.outcomes| == |snapshot|
    ensures forall i :: 0 <= i < |snapshot| ==> r.outcomes[i] == ConvertItem(req, codecs, snapshot[i])
    ensures r.counters == Counters(Successes(r.outcomes), Skips(r.outcomes), ErrorMessages(r.outcomes))
    ensures r.counters.success + r.counters.skipped + |r.counters.errors| == |snapshot|
    ensures r.progress == ProgressTrail(|snapshot|)
  {
    Fold(Step(req, codecs), snapshot)
  }

  /**
   The loop as written, counters updated in place and one progress event per
   iteration; `step` is the body of its `try`.
   */
  method RunLoop(step: string -> Outcome, snapshot: seq<string>) returns (r: RunResult)
    ensures r == Fold(step, snapshot)
    ensures r.counters.success + r.counters.skipped + |r.counters.errors| == |snapshot|
  {
    var total := |snapshot|;
    var success, skipped, errors := 0, 0, [];
    var outcomes: seq<Outcome> := [];
    var progress: seq<ProgressEvent> := [];
    var i := 0;
    while i < total
      invariant 0 <= i <= total
      invariant outcomes == Outcomes(step, snapshot[..i])
      invariant success == Successes(outcomes) && skipped == Skips(outcomes) && errors == ErrorMessages(outcomes)
      invariant success + skipped + |errors| == i
      invariant |progress| == i
      invariant forall k :: 0 <= k < i ==> progress[k] == ProgressEvent(k + 1, total)
    {
      var o := step(snapshot[i]);
      var next := outcomes + [o];
      assert snapshot[..i + 1][..i] == snapshot[..i];
      assert Outcomes(step, snapshot[..i + 1]) == next;
      assert next[..|next| - 1] == outcomes;
      match o {
        case Converted => success := success + 1;
        case Skipped => skipped := skipped + 1;
        case Failed(m) => errors := errors + [m];
      }
      outcomes := next;
      progress := progress + [ProgressEvent(i + 1, total)];
      i := i + 1;
    }
    assert snapshot[..total] == snapshot;
    assert forall k :: 0 <= k < total ==> progress[k] == ProgressTrail(total)[k];
    assert progress == ProgressTrail(total);
    r := RunResult(outcomes, Counters(success, skipped, errors), progress);
  }

  lemma DivideMonotone(a: real, b: real, t: real)
    requires 0.0 <= a < b && t > 0.0
    ensures a / t < b / t
  {
    assert (b - a) / t > 0.0;
    assert b / t - a / t == (b - a) / t;
  }

  /** The progress bar only moves forward, stays within (0, 1], and reaches 1 after the last item. */
  lemma ProgressMonotone(total: nat)
    ensures forall i, j :: 0 <= i < j < total ==> Fraction(ProgressTrail(total)[i]) < Fraction(ProgressTrail(total)[j])
    ensures forall i :: 0 <= i < total ==> 0.0 < Fraction(ProgressTrail(total)[i]) <= 1.0
    ensures total > 0 ==> Fraction(ProgressTrail(total)[total - 1]) == 1.0
  {
    forall i, j | 0 <= i < j < total
      ensures Fraction(ProgressTrail(total)[i]) < Fraction(ProgressTrail(total)[j])
    {
      FractionIncreases(total, i, j);
    }
    forall i | 0 <= i < total
      ensures 0.0 < Fraction(ProgressTrail(total)[i]) <= 1.0
    {
      FractionBounded(total, i);
    }
    if total > 0 {
      FractionBounded(total, total - 1);
    }
  }

  lemma FractionAt(total: nat, i: nat)
    requires i < total
    ensures Fraction(ProgressTrail(total)[i]) == (i + 1) as real / total as real
  {
    assert ProgressTrail(total)[i] == ProgressEvent(i + 1, total);
  }

  lemma FractionIncreases(total: nat, i: nat, j: nat)
    requires i < j < total
    ensures Fraction(ProgressTrail(total)[i]) < Fraction(ProgressTrail(total)[j])
  {
    FractionAt(total, i);
    FractionAt(total, j);
    DivideMonotone((i + 1) as real, (j + 1) as real, total as real);
  }

  lemma FractionBounded(total: nat, i: nat)
    requires i < total
    ensures 0.0 < Fraction(ProgressTrail(total)[i]) <= 1.0
    ensures i == total - 1 ==> Fraction(ProgressTrail(total)[i]) == 1.0
  {
    var t := total as real;
    FractionAt(total, i);
    DivideMonotone(0.0, (i + 1) as real, t);
    DivideMonotone((i + 1) as real, t + 1.0, t);
    assert (t + 1.0) / t == 1.0 + 1.0 / t;
    assert t / t == 1.0;
  }

  /** How many items the class policy skips for a mode; no codec plays a part in it. */
  function PolicySkips(mode: Mode, paths: seq<string>): nat {
    if paths == [] then 0
    else
      var last := if Select(mode, ClassOf(Extension(paths[|paths| - 1]))) == Skip then 1 else 0;
      PolicySkips(mode, paths[..|paths| - 1]) + last
  }

  /** The skip count of a run is decided by the policy alone, whatever the codecs do. */
  lemma {:induction false} SkipsFollowPolicy(req: Request, codecs: Codecs, snapshot: seq<string>)
    ensures Run(req, codecs, snapshot).counters.skipped == PolicySkips(req.mode, snapshot)
    decreases |snapshot|
  {
    var step := Step(req, codecs);
    var os := Outcomes(step, snapshot);
    if snapshot != [] {
      var front, last := snapshot[..|snapshot| - 1], snapshot[|snapshot| - 1];
      SkipsFollowPolicy(req, codecs, front);
      assert os == Outcomes(step, front) + [ConvertItem(req, codecs, last)];
      assert os[..|os| - 1] == Outcomes(step, front);
    }
  }

  /** What pressing the start button leads to. */
  datatype Start =
    | EmptyQueueWarning
    | NoDirectoryChosen
    | Finished(run: RunResult, message: string)

  /**
   `start_conversion_thread` followed by the run and `finish`. An empty
   queue only raises a warning and a cancelled directory choice (empty
   string) does nothing; neither touches a codec. Otherwise the queue is run
   and the report text carries the run's counters.
   */
  function StartConversion(queue: seq<string>, settings: Settings, chosenDir: string, codecs: Codecs): (s: Start)
    ensures s.EmptyQueueWarning? <==> queue == []
    ensures s.NoDirectoryChosen? <==> queue != [] && chosenDir == ""
    ensures s.Finished? ==> |s.run.outcomes| == |queue|
    ensures s.Finished? ==>
      forall i :: 0 <= i < |queue| ==>
        s.run.outcomes[i] == ConvertItem(Request(settings.mode, settings.format, chosenDir), codecs, queue[i])
    ensures s.Finished? ==> s.run.progress == ProgressTrail(|queue|)
    ensures s.Finished? ==>
      s.run.counters == Counters(Successes(s.run.outcomes), Skips(s.run.outcomes), ErrorMessages(s.run.outcomes))
    ensures s.Finished? ==> s.run.counters.success + s.run.counters.skipped + |s.run.counters.errors| == |queue|
    ensures s.Finished? ==>
      ParseReport(s.message) == Some(Summary(s.run.counters.success, s.run.counters.skipped, |s.run.counters.errors|))
    ensures s.Finished? ==>
      SplitLines(s.message) == ReportLines(s.run.counters.success, s.run.counters.skipped, |s.run.counters.errors|)
  {
    if queue == [] then EmptyQueueWarning
    else if chosenDir == "" then NoDirectoryChosen
    else
      var r := Run(Request(settings.mode, settings.format, chosenDir), codecs, queue);
      FinishRoundTrip(r.counters.success, r.counters.skipped, r.counters.errors);
      FinishLines(r.counters.success, r.counters.skipped, r.counters.errors);
      Finished(r, FinishMessage(r.counters.success, r.counters.skipped, r.counters.errors))
  }
}

=== FILE: selector.dfy ===
/**
 The per-item decision of a run: convert the file with the mode's codec, or
 count it as skipped because its extension does not suit the mode.
 */
module Selector {
  import opened Catalog

  datatype Decision = Proceed | Skip

  /** The policy by media class. Audio mode also takes video sources, whose sound track it extracts. */
  function Select(mode: Mode, cls: MediaClass): (d: Decision)
    ensures d == Proceed ==> cls != UnknownClass
    ensures mode == Audio ==> (d == Proceed <==> cls == AudioClass || cls == VideoClass)
    ensures mode == Image ==> (d == Proceed <==> cls == ImageClass)
    ensures mode == Video ==> (d == Proceed <==> cls == VideoClass)
  {
    match (mode, cls)
    case (Image, ImageClass) => Proceed
    case (Video, VideoClass) => Proceed
    case (Audio, AudioClass) => Proceed
    case (Audio, VideoClass) => Proceed
    case _ => Skip
  }

  /**
   The decision as the run loop takes it: membership of the lower-cased
   extension in the mode's tables. These tests implement exactly the class
   policy.
   */
  function Decide(mode: Mode, ext: string): (d: Decision)
    ensures d == Select(mode, ClassOf(ext))
  {
    match mode
    case Image => if ext in ImageInputs then Proceed else Skip
    case Video => if ext in VideoInputs then Proceed else Skip
    case Audio => if ext in AudioInputs || ext in VideoInputs then Proceed else Skip
  }

  /** Only recognised extensions are ever converted. */
  lemma ProceedOnlyKnown(mode: Mode, ext: string)
    ensures Decide(mode, ext) == Proceed ==> ext in AllValid
  {
  }

  /** The asymmetry of the policy on the three source classes. */
  lemma PolicyTable()
    ensures Select(Audio, VideoClass) == Proceed
    ensures Select(Audio, AudioClass) == Proceed
    ensures Select(Audio, ImageClass) == Skip
    ensures Select(Image, VideoClass) == Skip
    ensures Select(Image, AudioClass) == Skip
    ensures Select(Video, ImageClass) == Skip
    ensures Select(Video, AudioClass) == Skip
    ensures forall m :: Select(m, UnknownClass) == Skip
  {
  }

  /** A `.gif` source is a video: Video and Audio modes take it, Image mode skips it; `.pdf` is an image. */
  lemma GifAndPdfExamples()
    ensures Decide(Image, ".gif") == Skip && Decide(Video, ".gif") == Proceed && Decide(Audio, ".gif") == Proceed
    ensures Decide(Image, ".pdf") == Proceed && Decide(Video, ".pdf") == Skip && Decide(Audio, ".pdf") == Skip
  {
  }
}

=== FILE: text.dfy ===
/**
 Character-level helpers the converter relies on: lower-casing of extensions
 and format tokens, `rfind`, splitting a message into lines, and the decimal
 rendering of counters inside f-strings.
 */
module Text {
  import opened Wrappers

  /** The Kelvin sign, the one non-ASCII character Python's `str.lower()` maps to an ASCII letter (`k`). */
  const KelvinSign: char := '\U{212A}'

  /**
   Python's `str.lower()` on the characters that can lower-case into ASCII:
   the letters `A`-`Z` and the Kelvin sign. Every other character is kept.
   */
  function LowerChar(c: char): char {
    if 'A' <= c <= 'Z' then (c as int + 32) as char
    else if c == KelvinSign then 'k'
    else c
  }

  /** The characters lower-casing may change or produce: ASCII letters and the Kelvin sign. */
  predicate IsLetter(c: char) {
    ('A' <= c <= 'Z') || ('a' <= c <= 'z') || c == KelvinSign
  }

  function Lower(s: string): (r: string)
    ensures |r| == |s|
    ensures forall i :: 0 <= i < |s| ==> r[i] == LowerChar(s[i])
    ensures forall i :: 0 <= i < |s| ==> !('A' <= r[i] <= 'Z')
  {
    seq(|s|, i requires 0 <= i < |s| => LowerChar(s[i]))
  }

  /** Lower-casing commutes with dropping a prefix. */
  lemma LowerSuffixSlice(s: string, i: nat)
    requires i <= |s|
    ensures Lower(s)[i..] == Lower(s[i..])
  {
  }

  /** Index of the last occurrence of `c` in `s`, or -1 when there is none (`str.rfind`). */
  function RFind(s: string, c: char): (r: int)
    ensures -1 <= r < |s|
    ensures r == -1 <==> c !in s
    ensures 0 <= r ==> s[r] == c && c !in s[r + 1..]
  {
    if s == [] then -1
    else if s[|s| - 1] == c then |s| - 1
    else RFind(s[..|s| - 1], c)
  }

  /** Appending text free of `c` does not move the last occurrence of `c`. */
  lemma {:induction false} RFindAppend(a: string, b: string, c: char)
    requires c !in b
    ensures RFind(a + b, c) == RFind(a, c)
    decreases |b|
  {
    if b != [] {
      var b' := b[..|b| - 1];
      assert (a + b)[..|a + b| - 1] == a + b';
      RFindAppend(a, b', c);
    } else {
      assert a + b == a;
    }
  }

  /** A separator that is not a letter is found at the same place after lower-casing. */
  lemma {:induction false} RFindLower(s: string, c: char)
    requires !IsLetter(c)
    ensures RFind(Lower(s), c) == RFind(s, c)
    decreases |s|
  {
    if s != [] {
      assert Lower(s)[..|s| - 1] == Lower(s[..|s| - 1]);
      LowerCharKeepsNonLetter(s[|s| - 1], c);
      RFindLower(s[..|s| - 1], c);
    }
  }

  /** Lower-casing never produces a non-letter from anything but itself. */
  lemma LowerCharKeepsNonLetter(x: char, c: char)
    requires !IsLetter(c)
    ensures LowerChar(x) == c <==> x == c
  {
    if 'A' <= x <= 'Z' {
      var y := (x as int + 32) as char;
      assert LowerChar(x) == y;
      assert 'a' <= y <= 'z';
      assert IsLetter(y);
    } else if x == KelvinSign {
      assert LowerChar(x) == 'k';
    }
  }

  /** `s.split("\n")`: always at least one piece, none containing a newline. */
  function SplitLines(s: string): (r: seq<string>)
    ensures |r| >= 1
    ensures forall k :: 0 <= k < |r| ==> '\n' !in r[k]
    decreases |s|
  {
    var i := RFind(s, '\n');
    if i < 0 then [s] else SplitLines(s[..i]) + [s[i + 1..]]
  }

  /** Appending a newline and one more line adds exactly that line to the split. */
  lemma SplitLinesAppend(s: string, line: string)
    requires '\n' !in line
    ensures SplitLines(s + "\n" + line) == SplitLines(s) + [line]
  {
    var t := s + "\n" + line;
    RFindAppend(s + "\n", line, '\n');
    assert t == (s + "\n") + line;
    assert RFind(s + "\n", '\n') == |s|;
    assert t[..|s|] == s;
    assert t[|s| + 1..] == line;
  }

  predicate IsDigit(c: char) {
    '0' <= c <= '9'
  }

  predicate AllDigits(s: string) {
    forall i :: 0 <= i < |s| ==> IsDigit(s[i])
  }

  function DigitChar(d: nat): (c: char)
    requires d < 10
    ensures IsDigit(c)
    ensures c as int - '0' as int == d
  {
    ('0' as int + d) as char
  }

  /** Decimal rendering of a counter, as an f-string prints an `int`. */
  function NatToString(n: nat): (r: string)
    ensures |r| >= 1
    ensures AllDigits(r)
    decreases n
  {
    if n < 10 then [DigitChar(n)] else NatToString(n / 10) + [DigitChar(n % 10)]
  }

  /** The value a non-empty run of decimal digits denotes. */
  function DigitsValue(s: string): nat
    requires AllDigits(s)
  {
    if s == [] then 0
    else DigitsValue(s[..|s| - 1]) * 10 + (s[|s| - 1] as int - '0' as int)
  }

  function ParseNat(s: string): (r: Option<nat>)
    ensures r.Some? <==> |s| >= 1 && AllDigits(s)
  {
    if |s| >= 1 && AllDigits(s) then Some(DigitsValue(s)) else None
  }

  lemma {:induction false} NatToStringRoundTrip(n: nat)
    ensures ParseNat(NatToString(n)) == Some(n)
    decreases n
  {
    var s := NatToString(n);
    if n < 10 {
      assert s == [DigitChar(n)];
      assert s[..0] == [];
      assert DigitsValue(s) == n;
    } else {
      NatToStringRoundTrip(n / 10);
      assert s[..|s| - 1] == NatToString(n / 10);
      assert DigitsValue(s[..|s| - 1]) == n / 10;
      assert s[|s| - 1] as int - '0' as int == n % 10;
      assert DigitsValue(s) == (n / 10) * 10 + n % 10;
    }
  }
}

=== FILE: wrappers.dfy ===
/** The optional value used by the parsers of this model. */
module Wrappers {

  datatype Option<+T> = None | Some(value: T)
}
